=== FILE: README.md ===
# Salon booking screens — a Dafny model

This project models the client-side logic of a salon booking app. The logic lives in the
event handlers of four screens:

- **Appointments** (`appointments.dfy`) covers the appointment screen:
  - the booking builder (outlet, stylist or "any stylist", date, time, services);
  - the confirm guard, which turns the draft into a new-appointment request;
  - the service checkboxes and the fourteen-day date row;
  - the split of the appointment list into the one "upcoming" appointment and the "past" list;
  - the cancel confirmation dialog.
- **Login** (`login.dfy`) covers the login screen: phone or email mode, Send TAC, a 30-second resend countdown, a six-digit code field, and verification against the fixed mock code `123456`.
- **CreateAccount** (`create_account.dfy`) covers the account form. Name and birthday are required; gender defaults to male.
- **Profile** (`profile.dfy`) covers the profile screen. Its form is seeded from the user with defaults, and Save merges it over the user.
- `js.dfy` holds the JavaScript notions the handlers rely on: `null`, string truthiness and `x || fallback`. `users.dfy` holds the shared `User` record.

Each screen is an immutable record with pure handler functions. Each also has an `Apply(state, event)`
that applies an event only when its control is rendered and enabled; a press on a
disabled or hidden control changes nothing. Calls into the parent component are emitted
outputs rather than calls: `onAdd`, `setLastOutletId`, `onCancel`, `onLogin`, `onSubmit`,
`onUpdateUser` and `onLogout`.

Modelling choices:

- Calendar dates are integer day numbers, and `today` is a parameter.
- The one-second countdown interval is an explicit `ClockTick` event.
- The catalogs of outlets, stylists, services and time slots are opaque. Any outlet, stylist or time label may be picked.
- JavaScript truthiness is written out. An empty `selectedTime`, `cancellingId` or `identifier` counts as absent, exactly as `!x` treats it in the handlers.
- The OTP field's `maxLength={6}` is modelled as keeping the first six characters (Unicode scalar values, not UTF-16 code units). `\D` removal follows.

Several things a booking system might be expected to do are absent from these handlers, and the model does not add them:
- bookings are never checked for collisions;
- an auto-assigned booking never gets a concrete stylist on this screen;
- the code never expires, wrong codes are not limited, the code is not random, and sends are not rate-limited per identifier;
- Reschedule opens a new booking and does not cancel the original.

 "Upcoming" is the *first* appointment in list order dated today or later, not the earliest one. "Past" keeps list order rather than sorting by date.

## Model

| member | source | states |
|---|---|---|
| Js.OrElse | screens/ProfileScreen.tsx:14-19 | The JavaScript or-default of a string that may be missing (`user.name` or else `''`): a present non-empty string is kept, and a missing or empty one gives the fallback. |
| Appointments.IsFormValid | screens/AppointmentScreen.tsx:112 | Once an outlet is chosen, the confirm button is enabled exactly when `handleConfirm`'s guard would let the booking through. |
| Appointments.ResetBooking | screens/AppointmentScreen.tsx:25-31 | Resetting leaves booking mode and clears outlet, stylist, time and services. The selected date and any pending cancellation are kept. |
| Appointments.Confirm | screens/AppointmentScreen.tsx:33-46 | An incomplete draft emits nothing and changes nothing. A complete draft emits one add request and then the last-outlet update. The request copies outlet id, date, time and service list unchanged. It is `SYSTEM_AUTO` exactly when "any stylist" was picked, and auto requests are exactly those with a null stylist, so a `MANUAL` request always names the chosen stylist. The draft is then cleared and the date kept. |
| Appointments.LastOutletAfter | screens/AppointmentScreen.tsx:44 | The parent's last-used outlet after a step is the one named by the step's last `setLastOutletId` call, and is unchanged when the step makes none. |
| Appointments.ConfirmSetsLastOutlet | screens/AppointmentScreen.tsx:44 | After a confirmed booking, the parent's last-used outlet is the booked outlet. |
| Appointments.Without | screens/AppointmentScreen.tsx:206 | Unticking removes every occurrence of the name. Every other name keeps its number of occurrences. |
| Appointments.ToggleService | screens/AppointmentScreen.tsx:204-207 | Ticking appends the name after the unchanged list. Unticking leaves the name absent. Other names are unaffected either way. |
| Appointments.ClickServiceBox | screens/AppointmentScreen.tsx:203-206 | A click flips whether the clicked service shows as checked (checked iff its name is in the list) and leaves every other checkbox as it was. |
| Appointments.WithoutAbsent | screens/AppointmentScreen.tsx:206 | Filtering out a name that is not in the list returns the list unchanged. |
| Appointments.WithoutAppend | screens/AppointmentScreen.tsx:206 | The filter distributes over concatenation, so it preserves the order of the names it keeps. |
| Appointments.CheckThenUncheck | screens/AppointmentScreen.tsx:203-206 | Ticking an unticked service and then unticking it restores the original list. |
| Appointments.DateOptions | screens/AppointmentScreen.tsx:56-69 | The date row holds 14 days: today + i at position i, strictly ascending (hence distinct). A day is in the row iff it lies in [today, today + 14). |
| Appointments.Past | screens/AppointmentScreen.tsx:335-338 | The past list holds only appointments from the list dated before today, and holds every such appointment. |
| Appointments.PastAppend | screens/AppointmentScreen.tsx:338 | The past list distributes over concatenation, so it keeps list order. |
| Appointments.PastCounts | screens/AppointmentScreen.tsx:338 | Each past appointment appears as often as in the full list; every other appointment appears zero times. |
| Appointments.UpcomingIndex | screens/AppointmentScreen.tsx:23 | The search position is the first one dated today or later. Every appointment before it is past. |
| Appointments.Upcoming | screens/AppointmentScreen.tsx:23 | There is no upcoming appointment iff every appointment is past. Otherwise it is a list member dated today or later, and every appointment before it in the list is past. |
| Appointments.NoUpcomingIffAllPast | screens/AppointmentScreen.tsx:335 | "No upcoming appointment" happens exactly when the past list is the whole list. With dates as day numbers, every appointment is either upcoming-eligible or past. |
| Appointments.UpcomingSplitsPast | screens/AppointmentScreen.tsx:23 | The past list is the appointments skipped before the upcoming one, followed by the past ones after it. The upcoming appointment's own position never shows up as past. |
| Appointments.ConfirmCancel | screens/AppointmentScreen.tsx:48-53 | With a pending id, "Yes, Cancel" emits exactly one cancel for that id and clears it, changing nothing else. Without one, it does nothing. |
| Appointments.GoBackThenConfirmDoesNothing | screens/AppointmentScreen.tsx:246 | "Go Back" clears the pending id without cancelling. A later confirm then has nothing to cancel. |
| Appointments.Apply | screens/AppointmentScreen.tsx:71-329 | Every event preserves three facts on a fixed day: the chosen date lies in the date row, the draft is empty outside booking mode, and the dialog never shows during booking. Only a valid confirm emits an add request, which is well-formed and dated inside the window. Only "Yes, Cancel" on a pending id emits a cancel. Every enabled control runs its handler: New Appointment opens booking, an outlet card picks the outlet, Back and Close return, the details inputs set stylist, in-row date, time and services, Confirm runs `handleConfirm`, Cancel opens the dialog on the upcoming appointment, Go Back closes it, and "Yes, Cancel" runs `confirmCancel`. While the dialog is open, nothing else acts. Any call to the parent at all comes only from a valid Confirm in booking mode or "Yes, Cancel" on a pending id. |
| Appointments.InitialIsInv | screens/AppointmentScreen.tsx:15-21 | The screen as first rendered (list view, empty draft, today's date, no dialog) satisfies the invariant. |
| Appointments.RunRequestsAreBookable | screens/AppointmentScreen.tsx:33-69 | Consider any sequence of events on one day, starting from a reachable screen. The invariant survives, and every booking handed to `onAdd` is well-formed and dated inside the fourteen-day row. |
| Login.SendTac | screens/LoginScreen.tsx:25-32 | An empty identifier leaves the screen unchanged. Otherwise the code is marked sent and the countdown is exactly 30. Mode, identifier and code field are untouched either way. |
| Login.Tick | screens/LoginScreen.tsx:17-23 | A positive countdown drops by exactly one. Zero stays zero. Nothing else changes. |
| Login.Truncate | screens/LoginScreen.tsx:93 | The cut value is a prefix of the input of at most six characters: the input itself when it fits, its first six characters otherwise. |
| Login.EnteredOtp | screens/LoginScreen.tsx:93-97 | The field's value is exactly the digits among the first six characters typed, in order: all digits, at most six long, built only from typed characters. Up to six digits typed are kept as typed. |
| Login.KeepDigits | screens/LoginScreen.tsx:97 | Removing non-digits leaves only digits, never lengthens the code, and never introduces a character the input lacks. How many of each digit survive, and in which order, is stated by the next two rows. |
| Login.EditOtp | screens/LoginScreen.tsx:91-98 | The field holds the digits among the first six characters typed, in order; at most six digits in all. Typing up to six digits keeps them as typed. Nothing else changes. |
| Login.KeepDigitsCounts | screens/LoginScreen.tsx:97 | Every digit occurs in the result exactly as often as in the input, and every non-digit occurs zero times. |
| Login.KeepDigitsAppend | screens/LoginScreen.tsx:97 | The filter distributes over concatenation, so the kept digits stay in input order. |
| Login.KeepDigitsOfDigits | screens/LoginScreen.tsx:97 | The digit filter leaves a string unchanged iff it is all digits. |
| Login.EnteredOtpIdempotent | screens/LoginScreen.tsx:93-97 | Filtering what the field already holds changes nothing. |
| Login.EnteredMockCode | screens/LoginScreen.tsx:35 | Typing `123456` leaves exactly `123456` in the field. |
| Login.Verify | screens/LoginScreen.tsx:34-40 | A login with the screen's identifier and mode is emitted iff the code is `123456`. The screen state never changes. |
| Login.SwitchMode | screens/LoginScreen.tsx:54-65 | Switching mode sets the new mode, marks the code as not sent and empties the code field. The identifier and countdown are kept. |
| Login.Apply | screens/LoginScreen.tsx:17-112 | Every event preserves the reachable-state invariant: countdown at most 30, code all digits and at most six long, an empty code before sending, and a non-empty identifier once sent. A login is emitted only by an enabled Verify holding `123456`, and every such Verify emits one. Verify never changes the screen. The countdown only rises, to 30, by a send with a non-empty identifier. Every enabled control runs its handler: the identifier field before sending, Send TAC, the OTP field after sending, Resend once the countdown is 0 (re-arming it to 30), the one-second tick and the mode tabs. Only Verify emits a login. The countdown rises only through Send TAC before a code is sent or Resend once the countdown is 0, so no other event restarts the cooldown. |
| Login.RetriesUnlimited | screens/LoginScreen.tsx:34-40 | After any number of wrong codes, typing `123456` and pressing Verify logs in exactly once, with the screen's identifier and mode. |
| Login.ResendBlockedDuringCooldown | screens/LoginScreen.tsx:106-112 | While the countdown is positive, Resend changes nothing and emits nothing. |
| Login.ModeSwitchSkipsCooldown | screens/LoginScreen.tsx:54-83 | After a mode switch, Send TAC re-arms the countdown to 30 whatever its previous value, because the Send TAC button ignores the countdown. |
| Login.LoginHasIdentifier | screens/LoginScreen.tsx:26 | From any reachable screen, an emitted login names a non-empty identifier. |
| Login.InitialIsInv | screens/LoginScreen.tsx:11-15 | The initial screen (phone mode, empty fields, not sent, countdown 0) satisfies the invariant. |
| Login.RunKeepsInv | screens/LoginScreen.tsx:17-112 | After any sequence of events from a reachable screen, the invariant still holds and every emitted login names a non-empty identifier. |
| CreateAccount.SetText | screens/CreateAccountScreen.tsx:40 | Editing a text field sets that field and leaves every other field and the gender as they were (same for lines 53, 76 and 87). |
| CreateAccount.SetGender | screens/CreateAccountScreen.tsx:61 | Picking a gender changes only the gender. |
| CreateAccount.Submit | screens/CreateAccountScreen.tsx:18-25 | The form goes to `onSubmit` iff name and birthday are both non-empty, and it goes whole and unchanged. |
| CreateAccount.RequiredFieldsBlock | screens/CreateAccountScreen.tsx:10-23 | The initial form (everything empty, gender male) is not submitted. Neither is any form with an empty name or birthday. |
| CreateAccount.OptionalFieldsNeverBlock | screens/CreateAccountScreen.tsx:20 | `handleSubmit`'s guard reads neither phone, email nor gender: changing them never changes its verdict. |
| CreateAccount.RequiredFieldsSuffice | screens/CreateAccountScreen.tsx:10-24 | Filling in only name and birthday submits them, with every other field at its default. |
| CreateAccount.Apply | screens/CreateAccountScreen.tsx:18-90 | Only the submit button submits, passing the form unchanged. A submit goes through iff name and birthday are filled in and a non-empty email passes the browser's `type="email"` check. Submitting does not alter the form. Each input's change sets exactly its own field, and the gender select sets only the gender. |
| CreateAccount.EmptyOptionalFieldsNeverBlock | screens/CreateAccountScreen.tsx:18-90 | With name and birthday filled in, an empty email and any phone never block: the form is submitted unchanged. |
| CreateAccount.FillInAndSubmit | screens/CreateAccountScreen.tsx:10-90 | From the initial form, typing a name and birthday and pressing Create Account submits exactly one form: that name and birthday, gender male, phone and email empty. |
| CreateAccount.RunSubmitsOnlyComplete | screens/CreateAccountScreen.tsx:18-25 | However the form is filled in, every form handed to `onSubmit` has a non-empty name and birthday. |
| Profile.InitialForm | screens/ProfileScreen.tsx:13-20 | Each text field is copied from the user when present and is `''` when missing. Gender defaults to `OTHER`. The picture falls back to the placeholder URL when missing or empty, so the form always holds a picture. With no user, everything is the default. |
| Profile.SetText | screens/ProfileScreen.tsx:74-104 | Editing a text field sets that field and leaves every other field, the gender and the picture as they were. |
| Profile.Merge | screens/ProfileScreen.tsx:25 | The saved user holds the form's six fields. Every other user field (id, credit balance) is unchanged. |
| Profile.Save | screens/ProfileScreen.tsx:24-27 | Save emits the merged user to `onUpdateUser` and leaves editing mode. The form is kept. |
| Profile.Apply | screens/ProfileScreen.tsx:22-160 | With a null user, nothing but a new `user` prop has any effect. A new prop replaces the user and keeps the form and editing mode. Only Save in editing mode emits an update, and it leaves editing. Cancel emits nothing, leaves editing and keeps the form. The form changes only through the edit inputs. The form always holds a picture. While editing, each text input sets only its field, the gender select sets only the gender, and Save runs `handleUpdate`. Outside editing, Edit Profile opens the editor and Logout emits `onLogout`; nothing else ever emits `onLogout`. |
| Profile.MountIsInv | screens/ProfileScreen.tsx:13-20 | The freshly mounted screen satisfies the invariant. |
| Profile.SaveRoundTrip | screens/ProfileScreen.tsx:13-25 | Seeding a form from the saved user gives back exactly the saved form. |
| Profile.MergeIdempotent | screens/ProfileScreen.tsx:25 | Saving the same form twice is the same as saving it once. |
| Profile.UneditedSaveFillsDefaults | screens/ProfileScreen.tsx:13-25 | Saving an untouched form is not a no-op for incomplete users. A missing picture becomes the placeholder, a missing gender becomes `OTHER`, and a missing name becomes `''`. |
| Profile.CancelKeepsEdits | screens/ProfileScreen.tsx:121 | Cancel does not reset the form, so reopening the editor shows the unsaved edit. |
| Profile.StaleFormSave | screens/ProfileScreen.tsx:13-27 | A screen mounted without a user and handed one later still holds the default form, so Save overwrites that user with an empty name, `OTHER` and the placeholder picture. |
| Profile.RunKeepsOtherFields | screens/ProfileScreen.tsx:13-27 | After any sequence of events, every user handed to `onUpdateUser` keeps the id and credit balance of some user the screen was given (of the mounted user when the prop never changed) and carries a non-empty picture. |

## Left out

- Rendering, styling, images and SVG markup. The model covers only which controls are shown and enabled, since that decides which handlers can run.
- `Date` handling:
  - parsing date strings;
  - the difference between `toISOString` (UTC) and the local-midnight comparison;
  - `toLocaleDateString` formatting of the date row.
  Dates are day numbers and `today` is an input. In the source, an unparseable date (`NaN`) is neither upcoming (`>= today` fails) nor past (`< today` fails); day numbers have no such value, so the model's two predicates are complementary. A day that changes while the screen is open is not modelled. The date invariant holds for one fixed day. The appointment list passed in by the parent is also held fixed across a sequence of events.
- `setInterval` timing. Each `ClockTick` event is one elapsed second.
- `alert` and `console.log` calls. They have no effect on state.
- The Top Up button, and the `toFixed(2)` display of the credit balance. The balance is an opaque `real` that is carried through unchanged.
- The parents behind `onAdd`, `onCancel`, `setLastOutletId`, `onLogin`, `onSubmit`, `onUpdateUser` and `onLogout`. They live outside these screens. Id, userId, status and createdAt of a new appointment are assigned there. After Save, the profile screen keeps its `user` prop until the parent replaces it.
- The outlet, stylist, service and time-slot catalogs and the shop name. They come from a constants file that is not part of this model. Stylists are not filtered by outlet in the source, and the model does not filter them either.
- The unread-badge cap of the top bar (`9+`). It is display formatting only.
- Login.EditOtp: the browser's `maxLength` is taken as keeping the first six characters typed. A browser may instead reject characters typed into the middle of a full field. Either way, the field never holds more than six characters. The cut also counts Unicode characters, whereas `maxLength` counts UTF-16 code units; the two differ for characters outside the Basic Multilingual Plane. Pasting an emoji followed by `123456` leaves `12345` in the model but `1234` in a browser.
- Profile.Apply: `formData` is seeded from `user` only on the first render. A later `user` prop replaces the user but not the form, so Save can write a stale form over a new user. The model keeps this behaviour rather than re-seeding.
- CreateAccount.Apply: the browser's email syntax check is an input (`emailWellFormed`) rather than a model of the `type="email"` grammar.
- The `Gender` enum and `User` type definitions are not part of this model. Gender values are assumed truthy, so `user.gender || OTHER` only falls back when the gender is missing.

=== FILE: appointments.dfy ===
/** The appointment screen (screens/AppointmentScreen.tsx): the booking builder that
    assembles a new-appointment request, the service checkboxes, the fourteen-day date
    row, the upcoming/past split of the appointment list and the cancel confirmation.
    Calendar dates are day numbers and `today` is a parameter; the parent callbacks
    `onAdd`, `setLastOutletId` and `onCancel` are emitted effects. */
module Appointments {
  import opened Js

  /** A calendar day, counted in days from a fixed epoch. */
  type Day = int

  /** Number of consecutive days offered in the date row, starting today. */
  const BookableDays: nat := 14

  datatype Outlet = Outlet(id: string, name: string)

  datatype Stylist = Stylist(id: string, name: string)

  /** The stylist pick: nothing yet, "Any Stylist" (auto-assign), or a concrete stylist. */
  datatype StylistChoice = NoStylist | AnyStylist | Chosen(stylist: Stylist)

  datatype AssignmentType = Manual | SystemAuto

  datatype Status = Confirmed | Cancelled | Completed

  /** What the screen hands to `onAdd`: an appointment without id, userId, status and
      createdAt, which the caller fills in. */
  datatype AppointmentRequest = AppointmentRequest(
    outletId: string,
    date: Day,
    timeSlot: string,
    stylistId: Option<string>,
    assignmentType: AssignmentType,
    serviceNames: seq<string>)

  datatype Appointment = Appointment(
    id: string,
    userId: string,
    outletId: string,
    date: Day,
    timeSlot: string,
    stylistId: Option<string>,
    assignmentType: AssignmentType,
    serviceNames: seq<string>,
    status: Status,
    createdAt: string)

  /** Calls the screen makes into its parent. */
  datatype Effect =
    | AddAppointment(request: AppointmentRequest)
    | SetLastOutlet(outletId: string)
    | CancelAppointment(id: string)

  /** The screen's local state: booking mode, the draft, and the id awaiting cancel confirmation. */
  datatype Screen = Screen(
    booking: bool,
    outlet: Option<Outlet>,
    stylist: StylistChoice,
    date: Day,
    time: Option<string>,
    services: seq<string>,
    cancelling: Option<string>)

  datatype Step = Step(screen: Screen, effects: seq<Effect>)

  /** What the user can do on the screen. */
  datatype Event =
    | OpenBooking
    | PickOutlet(outlet: Outlet)
    | BackToOutlets
    | CloseBooking
    | PickStylist(stylist: Stylist)
    | PickAnyStylist
    | PickDate(date: Day)
    | PickTime(time: string)
    | ClickService(name: string)
    | ConfirmBooking
    | AskCancel
    | GoBack
    | YesCancel

  function Initial(today: Day): Screen {
    Screen(false, None, NoStylist, today, None, [], None)
  }

  // ---------------------------------------------------------------------------
  // The booking draft

  /** `selectedTime` is truthy: chosen and not the empty string. */
  predicate HasTime(s: Screen) {
    s.time.Some? && Truthy(s.time.value)
  }

  /** The guard at the top of `handleConfirm`. */
  predicate CanConfirm(s: Screen) {
    && s.outlet.Some?
    && HasTime(s)
    && |s.services| > 0
    && !s.stylist.NoStylist?
  }

  /** `isFormValid`, which enables the confirm button on the details page (shown only
      once an outlet is chosen). */
  function IsFormValid(s: Screen): (valid: bool)
    ensures s.outlet.Some? ==> (valid <==> CanConfirm(s))
    ensures valid ==> |s.services| > 0
  {
    !s.stylist.NoStylist? && HasTime(s) && |s.services| > 0
  }

  /** `resetBooking`: leave booking mode and clear the draft, keeping the date. */
  function ResetBooking(s: Screen): (r: Screen)
    ensures !r.booking && r.outlet.None? && r.stylist.NoStylist? && r.time.None? && r.services == []
    ensures r.date == s.date && r.cancelling == s.cancelling
  {
    s.(booking := false, outlet := None, stylist := NoStylist, time := None, services := [])
  }

  /** A request as the parent may receive it: auto-assignment carries no stylist, a
      manual one always does, and at least one service is named. */
  predicate WellFormedRequest(q: AppointmentRequest) {
    && (q.assignmentType == SystemAuto <==> q.stylistId.None?)
    && |q.serviceNames| > 0
    && Truthy(q.timeSlot)
  }

  /** `handleConfirm`: when the draft is complete, emit the request and the last-used
      outlet, then reset the draft; otherwise do nothing. */
  function Confirm(s: Screen): (r: Step)
    ensures !CanConfirm(s) ==> r.screen == s && r.effects == []
    ensures CanConfirm(s) ==>
      && |r.effects| == 2
      && r.effects[0].AddAppointment?
      && r.effects[1] == SetLastOutlet(s.outlet.value.id)
    ensures CanConfirm(s) ==>
      var q := r.effects[0].request;
      && WellFormedRequest(q)
      && q.outletId == s.outlet.value.id
      && q.date == s.date
      && q.timeSlot == s.time.value
      && q.serviceNames == s.services
      && (q.assignmentType == SystemAuto <==> s.stylist.AnyStylist?)
      && (s.stylist.Chosen? ==> q.stylistId == Some(s.stylist.stylist.id))
    ensures CanConfirm(s) ==>
      && !r.screen.booking
      && r.screen.outlet.None? && r.screen.stylist.NoStylist?
      && r.screen.time.None? && r.screen.services == []
      && r.screen.date == s.date && r.screen.cancelling == s.cancelling
  {
    if !CanConfirm(s) then Step(s, [])
    else
      var auto := s.stylist.AnyStylist?;
      var q := AppointmentRequest(
        s.outlet.value.id,
        s.date,
        s.time.value,
        if auto then None else Some(s.stylist.stylist.id),
        if auto then SystemAuto else Manual,
        s.services);
      Step(ResetBooking(s), [AddAppointment(q), SetLastOutlet(s.outlet.value.id)])
  }

  /** The outlet id the parent holds after a step's effects, starting from `last`: the
      last `SetLastOutlet` wins. */
  function LastOutletAfter(last: string, effects: seq<Effect>): (id: string)
    ensures id == last || SetLastOutlet(id) in effects
    ensures (forall j :: 0 <= j < |effects| ==> !effects[j].SetLastOutlet?) ==> id == last
    ensures forall k :: 0 <= k < |effects| && effects[k].SetLastOutlet? &&
                        (forall j :: k < j < |effects| ==> !effects[j].SetLastOutlet?) ==>
                          id == effects[k].outletId
  {
    if effects == [] then last
    else if effects[|effects| - 1].SetLastOutlet? then effects[|effects| - 1].outletId
    else LastOutletAfter(last, effects[..|effects| - 1])
  }

  // ---------------------------------------------------------------------------
  // Service checkboxes

  /** A service's checkbox is ticked exactly when its name is in the list. */
  predicate IsChecked(services: seq<string>, name: string) {
    name in services
  }

  /** `prev.filter(n => n !== name)`: every occurrence of `name` removed, order kept. */
  function Without(services: seq<string>, name: string): (r: seq<string>)
    ensures name !in r
    ensures forall x :: x != name ==> (x in r <==> x in services)
    ensures forall x :: x != name ==> multiset(r)[x] == multiset(services)[x]
  {
    assert services != [] ==> services == [services[0]] + services[1..];
    if services == [] then []
    else if services[0] == name then Without(services[1..], name)
    else [services[0]] + Without(services[1..], name)
  }

  /** The checkbox `onChange`: a tick appends the name, an untick removes it everywhere. */
  function ToggleService(services: seq<string>, name: string, checked: bool): (r: seq<string>)
    ensures checked ==> |r| == |services| + 1 && r[..|services|] == services && r[|services|] == name
    ensures !checked ==> !IsChecked(r, name)
    ensures forall x :: x != name ==> (x in r <==> x in services)
    ensures forall x :: x != name ==> multiset(r)[x] == multiset(services)[x]
  {
    if checked then services + [name] else Without(services, name)
  }

  /** A click on a controlled checkbox reports the opposite of what it shows. */
  function ClickServiceBox(services: seq<string>, name: string): (r: seq<string>)
    ensures IsChecked(r, name) <==> !IsChecked(services, name)
    ensures forall x :: x != name ==> (IsChecked(r, x) <==> IsChecked(services, x))
  {
    ToggleService(services, name, !IsChecked(services, name))
  }

  /** Removing a name that is absent changes nothing. */
  lemma {:induction false} WithoutAbsent(services: seq<string>, name: string)
    requires name !in services
    ensures Without(services, name) == services
  {
    if services != [] {
      WithoutAbsent(services[1..], name);
      assert services == [services[0]] + services[1..];
    }
  }

  /** Removal distributes over concatenation, so it keeps the list's order. */
  lemma {:induction false} WithoutAppend(a: seq<string>, b: seq<string>, name: string)
    ensures Without(a + b, name) == Without(a, name) + Without(b, name)
  {
    if a != [] {
      assert (a + b)[1..] == a[1..] + b;
      assert (a + b)[0] == a[0];
      WithoutAppend(a[1..], b, name);
    } else {
      assert a + b == b;
    }
  }

  /** Ticking a service and then unticking it restores the list. */
  lemma CheckThenUncheck(services: seq<string>, name: string)
    requires !IsChecked(services, name)
    ensures ClickServiceBox(ClickServiceBox(services, name), name) == services
  {
    WithoutAppend(services, [name], name);
    WithoutAbsent(services, name);
    assert Without([name], name) == [];
  }

  // ---------------------------------------------------------------------------
  // The date row

  /** The days the date row offers: today and the thirteen days after it. */
  predicate InWindow(today: Day, d: Day) {
    today <= d < today + BookableDays
  }

  /** `dateOptions`: today + i for i from 0 to 13, in that order. */
  method DateOptions(today: Day) returns (dates: seq<Day>)
    ensures |dates| == BookableDays
    ensures |dates| > 0 && dates[0] == today
    ensures forall i :: 0 <= i < |dates| ==> dates[i] == today + i
    ensures forall i, j :: 0 <= i < j < |dates| ==> dates[i] < dates[j]
    ensures forall d :: d in dates <==> InWindow(today, d)
  {
    dates := [];
    var i := 0;
    while i < BookableDays
      invariant 0 <= i <= BookableDays
      invariant |dates| == i
      invariant forall k :: 0 <= k < i ==> dates[k] == today + k
    {
      dates := dates + [today + i];
      i := i + 1;
    }
    forall d | InWindow(today, d)
      ensures d in dates
    {
      assert dates[d - today] == d;
    }
  }

  // ---------------------------------------------------------------------------
  // Upcoming and past appointments

  /** Dated before today; the appointment's status plays no part. */
  predicate IsPast(a: Appointment, today: Day) {
    a.date < today
  }

  /** The "Past Appointments" list: the appointments dated before today, in list order. */
  function Past(appts: seq<Appointment>, today: Day): (past: seq<Appointment>)
    ensures |past| <= |appts|
    ensures forall a :: a in past ==> a in appts && IsPast(a, today)
    ensures forall a :: a in appts && IsPast(a, today) ==> a in past
  {
    if appts == [] then []
    else if IsPast(appts[0], today) then [appts[0]] + Past(appts[1..], today)
    else Past(appts[1..], today)
  }

  /** Position of the first appointment dated today or later, or |appts| if none. */
  function UpcomingIndex(appts: seq<Appointment>, today: Day): (k: nat)
    ensures k <= |appts|
    ensures forall j :: 0 <= j < k ==> IsPast(appts[j], today)
    ensures k < |appts| ==> !IsPast(appts[k], today)
  {
    if appts == [] then 0
    else if !IsPast(appts[0], today) then 0
    else 1 + UpcomingIndex(appts[1..], today)
  }

  /** `upcomingAppointment`: the first appointment in list order dated today or later. */
  function Upcoming(appts: seq<Appointment>, today: Day): (r: Option<Appointment>)
    ensures r.None? <==> forall a :: a in appts ==> IsPast(a, today)
    ensures r.Some? ==> r.value in appts && !IsPast(r.value, today)
    ensures r.Some? ==> exists k :: 0 <= k < |appts| && appts[k] == r.value &&
                                    forall j :: 0 <= j < k ==> IsPast(appts[j], today)
  {
    var k := UpcomingIndex(appts, today);
    if k < |appts| then Some(appts[k]) else None
  }

  /** The past list keeps list order: it distributes over concatenation. */
  lemma {:induction false} PastAppend(a: seq<Appointment>, b: seq<Appointment>, today: Day)
    ensures Past(a + b, today) == Past(a, today) + Past(b, today)
  {
    if a != [] {
      assert (a + b)[1..] == a[1..] + b;
      assert (a + b)[0] == a[0];
      PastAppend(a[1..], b, today);
    } else {
      assert a + b == b;
    }
  }

  /** The past list keeps every past appointment as often as it occurs, and nothing else. */
  lemma {:induction false} PastCounts(appts: seq<Appointment>, today: Day, a: Appointment)
    ensures multiset(Past(appts, today))[a] == if IsPast(a, today) then multiset(appts)[a] else 0
  {
    if appts != [] {
      PastCounts(appts[1..], today, a);
      assert appts == [appts[0]] + appts[1..];
    }
  }

  /** Exactly the lists with no upcoming appointment are shown whole under "Past". */
  lemma {:induction false} NoUpcomingIffAllPast(appts: seq<Appointment>, today: Day)
    ensures Upcoming(appts, today).None? <==> Past(appts, today) == appts
  {
    if appts != [] {
      NoUpcomingIffAllPast(appts[1..], today);
      if !IsPast(appts[0], today) {
        assert appts[0] !in Past(appts, today);
      } else {
        assert appts == [appts[0]] + appts[1..];
        assert Upcoming(appts, today).None? <==> Upcoming(appts[1..], today).None? by {
          assert forall a :: a in appts <==> a == appts[0] || a in appts[1..];
        }
      }
    }
  }

  /** The past list opens with every appointment the upcoming search skipped over, and
      never holds the upcoming appointment's position. */
  lemma {:induction false} UpcomingSplitsPast(appts: seq<Appointment>, today: Day)
    ensures var k := UpcomingIndex(appts, today);
            k < |appts| ==> Past(appts, today) == appts[..k] + Past(appts[k + 1..], today)
  {
    var k := UpcomingIndex(appts, today);
    if k < |appts| {
      assert appts == appts[..k] + ([appts[k]] + appts[k + 1..]);
      PastAppend(appts[..k], [appts[k]] + appts[k + 1..], today);
      PastAppend([appts[k]], appts[k + 1..], today);
      NoUpcomingIffAllPast(appts[..k], today);
      assert Upcoming(appts[..k], today).None?;
      assert Past([appts[k]], today) == [];
    }
  }

  // ---------------------------------------------------------------------------
  // Cancel confirmation

  /** `cancellingId` is truthy: the confirmation dialog is showing. */
  predicate Pending(s: Screen) {
    s.cancelling.Some? && Truthy(s.cancelling.value)
  }

  /** `confirmCancel`: cancel the pending appointment once and close the dialog. */
  function ConfirmCancel(s: Screen): (r: Step)
    ensures Pending(s) ==> r.effects == [CancelAppointment(s.cancelling.value)]
    ensures Pending(s) ==> r.screen.cancelling.None? && r.screen.(cancelling := s.cancelling) == s
    ensures !Pending(s) ==> r == Step(s, [])
  {
    if Pending(s) then Step(s.(cancelling := None), [CancelAppointment(s.cancelling.value)])
    else Step(s, [])
  }

  // ---------------------------------------------------------------------------
  // The whole screen

  /** Invariant of every screen reachable from `Initial(today)` on one day: the chosen
      date is one the date row offers, the draft is empty outside booking mode, and the
      dialog never shows during booking. */
  predicate Inv(s: Screen, today: Day) {
    && InWindow(today, s.date)
    && (!s.booking ==> s.outlet.None? && s.stylist.NoStylist? && s.time.None? && s.services == [])
    && (s.booking ==> !Pending(s))
  }

  /** One event, applied only when its control is on screen and enabled: the outlet list
      while booking without an outlet, the details page once one is chosen, and the
      appointment list otherwise, where an open dialog covers everything but its buttons. */
  function Apply(s: Screen, today: Day, appts: seq<Appointment>, ev: Event): (r: Step)
    ensures Inv(s, today) ==> Inv(r.screen, today)
    ensures forall e :: e in r.effects && e.AddAppointment? ==>
              ev.ConfirmBooking? && CanConfirm(s) && WellFormedRequest(e.request)
    ensures Inv(s, today) ==> forall e :: e in r.effects && e.AddAppointment? ==>
              InWindow(today, e.request.date)
    ensures forall e :: e in r.effects && e.CancelAppointment? ==>
              ev.YesCancel? && Pending(s) && r.effects == [CancelAppointment(s.cancelling.value)]
    ensures ev.GoBack? && !s.booking ==> r.effects == [] && !Pending(r.screen)
    ensures r.effects != [] ==>
              (ev.ConfirmBooking? && s.booking && CanConfirm(s)) || (ev.YesCancel? && !s.booking && Pending(s))
    // Every enabled control runs its handler.
    ensures ev.OpenBooking? && !s.booking && !Pending(s) ==> r == Step(s.(booking := true), [])
    ensures ev.PickOutlet? && s.booking && s.outlet.None? ==>
              r == Step(s.(outlet := Some(ev.outlet)), [])
    ensures ev.BackToOutlets? && s.booking && s.outlet.Some? ==> r == Step(s.(outlet := None), [])
    ensures ev.CloseBooking? && s.booking ==> r == Step(ResetBooking(s), [])
    ensures s.booking && s.outlet.Some? ==>
              && (ev.PickStylist? ==> r == Step(s.(stylist := Chosen(ev.stylist)), []))
              && (ev.PickAnyStylist? ==> r == Step(s.(stylist := AnyStylist), []))
              && (ev.PickDate? && InWindow(today, ev.date) ==> r == Step(s.(date := ev.date), []))
              && (ev.PickTime? ==> r == Step(s.(time := Some(ev.time)), []))
              && (ev.ClickService? ==>
                    r == Step(s.(services := ClickServiceBox(s.services, ev.name)), []))
              && (ev.ConfirmBooking? ==> r == Confirm(s))
    ensures ev.GoBack? && !s.booking && Pending(s) ==> r == Step(s.(cancelling := None), [])
    ensures ev.YesCancel? && !s.booking && Pending(s) ==> r == ConfirmCancel(s)
    ensures ev.AskCancel? && !s.booking && !Pending(s) ==>
              && r.effects == []
              && (Upcoming(appts, today).Some? ==>
                    r.screen == s.(cancelling := Some(Upcoming(appts, today).value.id)))
              && (Upcoming(appts, today).None? ==> r.screen == s)
    // The open dialog covers the list: only its two buttons act.
    ensures !s.booking && Pending(s) && !ev.GoBack? && !ev.YesCancel? ==> r == Step(s, [])
  {
    if s.booking && s.outlet.None? then
      match ev
      case PickOutlet(o) => Step(s.(outlet := Some(o)), [])
      case CloseBooking => Step(ResetBooking(s), [])
      case _ => Step(s, [])
    else if s.booking then
      match ev
      case BackToOutlets => Step(s.(outlet := None), [])
      case CloseBooking => Step(ResetBooking(s), [])
      case PickStylist(st) => Step(s.(stylist := Chosen(st)), [])
      case PickAnyStylist => Step(s.(stylist := AnyStylist), [])
      case PickDate(d) => Step(if InWindow(today, d) then s.(date := d) else s, [])
      case PickTime(t) => Step(s.(time := Some(t)), [])
      case ClickService(name) => Step(s.(services := ClickServiceBox(s.services, name)), [])
      case ConfirmBooking => if IsFormValid(s) then Confirm(s) else Step(s, [])
      case _ => Step(s, [])
    else if Pending(s) then
      match ev
      case GoBack => Step(s.(cancelling := None), [])
      case YesCancel => ConfirmCancel(s)
      case _ => Step(s, [])
    else
      match ev
      case OpenBooking => Step(s.(booking := true), [])
      case AskCancel =>
        var up := Upcoming(appts, today);
        Step(if up.Some? then s.(cancelling := Some(up.value.id)) else s, [])
      case _ => Step(s, [])
  }

  /** After a confirmed booking the parent's last-used outlet is the booked outlet. */
  lemma ConfirmSetsLastOutlet(s: Screen, last: string)
    requires CanConfirm(s)
    ensures LastOutletAfter(last, Confirm(s).effects) == s.outlet.value.id
  {
  }

  /** "Go Back" closes the dialog without cancelling; "Yes, Cancel" then has nothing to do. */
  lemma GoBackThenConfirmDoesNothing(s: Screen, today: Day, appts: seq<Appointment>)
    requires Pending(s) && !s.booking
    ensures var s1 := Apply(s, today, appts, GoBack).screen;
            Apply(s1, today, appts, YesCancel) == Step(s1, [])
  {
  }

  /** The screen after a sequence of events on one day, with every effect emitted on the way. */
  datatype Trace = Trace(screen: Screen, effects: seq<Effect>)

  function Run(s: Screen, today: Day, appts: seq<Appointment>, evs: seq<Event>): (t: Trace)
    ensures |t.effects| <= 2 * |evs|
    decreases |evs|
  {
    if evs == [] then Trace(s, [])
    else
      var st := Apply(s, today, appts, evs[0]);
      var rest := Run(st.screen, today, appts, evs[1..]);
      Trace(rest.screen, st.effects + rest.effects)
  }

  /** Whatever the user does on one day, starting from a reachable screen, every booking
      handed to the parent is well-formed and dated inside the date row. */
  lemma {:induction false} RunRequestsAreBookable(s: Screen, today: Day, appts: seq<Appointment>, evs: seq<Event>)
    requires Inv(s, today)
    ensures Inv(Run(s, today, appts, evs).screen, today)
    ensures forall e :: e in Run(s, today, appts, evs).effects && e.AddAppointment? ==>
              WellFormedRequest(e.request) && InWindow(today, e.request.date)
    decreases |evs|
  {
    if evs != [] {
      var st := Apply(s, today, appts, evs[0]);
      RunRequestsAreBookable(st.screen, today, appts, evs[1..]);
    }
  }

  lemma InitialIsInv(today: Day)
    ensures Inv(Initial(today), today)
  {
  }
}

=== FILE: create_account.dfy ===
/** The account-creation form (screens/CreateAccountScreen.tsx): name and birthday are
    required, gender defaults to male, phone and email are optional. The `onSubmit`
    callback is the emitted form. */
module CreateAccount {
  import opened Js
  import opened Users

  datatype AccountForm = AccountForm(
    name: string,
    dob: string,
    gender: Gender,
    phone: string,
    email: string)

  /** The four free-text inputs of the form. */
  datatype TextField = Name | Dob | Phone | Email

  function InitialForm(): AccountForm {
    AccountForm("", "", Male, "", "")
  }

  function Get(f: AccountForm, field: TextField): string {
    match field
    case Name => f.name
    case Dob => f.dob
    case Phone => f.phone
    case Email => f.email
  }

  /** A text input's `onChange`: that field takes the typed value, nothing else moves. */
  function SetText(f: AccountForm, field: TextField, v: string): (g: AccountForm)
    ensures Get(g, field) == v
    ensures forall other :: other != field ==> Get(g, other) == Get(f, other)
    ensures g.gender == f.gender
  {
    match field
    case Name => f.(name := v)
    case Dob => f.(dob := v)
    case Phone => f.(phone := v)
    case Email => f.(email := v)
  }

  /** The gender select's `onChange`. */
  function SetGender(f: AccountForm, gender: Gender): (g: AccountForm)
    ensures g.gender == gender
    ensures forall field :: Get(g, field) == Get(f, field)
  {
    f.(gender := gender)
  }

  /** `handleSubmit`: the whole form goes to `onSubmit` exactly when name and birthday
      are filled in. */
  function Submit(f: AccountForm): (out: Option<AccountForm>)
    ensures out.Some? <==> Truthy(f.name) && Truthy(f.dob)
    ensures out.Some? ==> out.value == f
  {
    if !Truthy(f.name) || !Truthy(f.dob) then None else Some(f)
  }

  /** The untouched form is never submitted, and neither is one missing either required field. */
  lemma RequiredFieldsBlock(f: AccountForm)
    ensures Submit(InitialForm()).None?
    ensures Submit(SetText(f, Name, "")).None?
    ensures Submit(SetText(f, Dob, "")).None?
  {
  }

  /** Phone, email and gender never decide whether the form is submitted. */
  lemma OptionalFieldsNeverBlock(f: AccountForm, phone: string, email: string, gender: Gender)
    ensures Submit(f.(phone := phone, email := email, gender := gender)).Some?
        <==> Submit(f).Some?
  {
  }

  /** Filling in only the two required fields is enough; everything else keeps its default. */
  lemma RequiredFieldsSuffice(name: string, dob: string)
    requires Truthy(name) && Truthy(dob)
    ensures Submit(SetText(SetText(InitialForm(), Name, name), Dob, dob))
         == Some(AccountForm(name, dob, Male, "", ""))
  {
  }

  /** An input's `onChange`, or the submit button. `emailWellFormed` is the browser's
      verdict on a non-empty email under `type="email"`; the email syntax itself is not
      modelled. */
  datatype Event =
    | EditText(field: TextField, value: string)
    | PickGender(gender: Gender)
    | PressSubmit(emailWellFormed: bool)

  /** The browser's constraint validation, which runs before the submit handler: the
      `required` name and birthday must be filled in, and a non-empty email must be well
      formed. An empty email is always valid, and the phone input has no constraint. */
  predicate BrowserAccepts(f: AccountForm, emailWellFormed: bool) {
    Truthy(f.name) && Truthy(f.dob) && (!Truthy(f.email) || emailWellFormed)
  }

  /** One event on the form. A submit the browser rejects never reaches `handleSubmit`. */
  function Apply(f: AccountForm, ev: Event): (r: (AccountForm, Option<AccountForm>))
    ensures r.1.Some? ==> ev.PressSubmit? && r.1.value == f && Truthy(f.name) && Truthy(f.dob)
    ensures ev.PressSubmit? ==>
              r.0 == f && (r.1.Some? <==> BrowserAccepts(f, ev.emailWellFormed))
    ensures ev.EditText? ==> r == (SetText(f, ev.field, ev.value), None)
    ensures ev.PickGender? ==> r == (SetGender(f, ev.gender), None)
  {
    match ev
    case EditText(field, v) => (SetText(f, field, v), None)
    case PickGender(g) => (SetGender(f, g), None)
    case PressSubmit(ok) => (f, if BrowserAccepts(f, ok) then Submit(f) else None)
  }

  /** An empty phone or email never blocks submission: with name and birthday filled in,
      the form is submitted unchanged whatever the browser thinks of email syntax. */
  lemma EmptyOptionalFieldsNeverBlock(f: AccountForm, emailWellFormed: bool)
    requires Truthy(f.name) && Truthy(f.dob) && f.email == ""
    ensures Apply(f, PressSubmit(emailWellFormed)).1 == Some(f)
  {
  }

  /** Filling in name and birthday and pressing Create Account submits them, with the
      gender left at male and phone and email empty. */
  lemma FillInAndSubmit(name: string, dob: string, emailWellFormed: bool)
    requires Truthy(name) && Truthy(dob)
    ensures Run(InitialForm(), [EditText(Name, name), EditText(Dob, dob), PressSubmit(emailWellFormed)]).1
              == [AccountForm(name, dob, Male, "", "")]
  {
    var evs := [EditText(Name, name), EditText(Dob, dob), PressSubmit(emailWellFormed)];
    var f1 := SetText(InitialForm(), Name, name);
    var f2 := SetText(f1, Dob, dob);
    assert f2 == AccountForm(name, dob, Male, "", "");
    assert evs[1..] == [EditText(Dob, dob), PressSubmit(emailWellFormed)];
    assert evs[1..][1..] == [PressSubmit(emailWellFormed)];
    assert Run(f2, [PressSubmit(emailWellFormed)]).1 == [f2];
  }

  /** The form after a sequence of events, with every submission made on the way. */
  function Run(f: AccountForm, evs: seq<Event>): (r: (AccountForm, seq<AccountForm>))
    ensures |r.1| <= |evs|
    decreases |evs|
  {
    if evs == [] then (f, [])
    else
      var st := Apply(f, evs[0]);
      var rest := Run(st.0, evs[1..]);
      (rest.0, (if st.1.Some? then [st.1.value] else []) + rest.1)
  }

  /** However the form is filled in, every form handed to `onSubmit` has a name and a birthday. */
  lemma {:induction false} RunSubmitsOnlyComplete(f: AccountForm, evs: seq<Event>)
    ensures forall g :: g in Run(f, evs).1 ==> Truthy(g.name) && Truthy(g.dob)
    decreases |evs|
  {
    if evs != [] {
      RunSubmitsOnlyComplete(Apply(f, evs[0]).0, evs[1..]);
    }
  }
}

=== FILE: js.dfy ===
/** The few JavaScript notions the screens' handlers rely on: values that may be `null`
    or missing, the truthiness of strings in guards such as `if (!identifier) return`,
    and defaults written `value || fallback`. */
module Js {

  /** A value that may be `null` or missing. */
  datatype Option<+T> = None | Some(value: T)

  /** A string is truthy in JavaScript exactly when it is not empty. */
  predicate Truthy(s: string) {
    s != ""
  }

  /** `o || fallback` for a string that may be missing: a missing or empty string
      gives way to the fallback. */
  function OrElse(o: Option<string>, fallback: string): (r: string)
    ensures o.Some? && Truthy(o.value) ==> r == o.value
    ensures o.None? || !Truthy(o.value) ==> r == fallback
  {
    if o.Some? && Truthy(o.value) then o.value else fallback
  }
}

=== FILE: login.dfy ===
/** The login screen (screens/LoginScreen.tsx): choose phone or email, send a TAC,
    type the one-time code and verify it. The one-second countdown interval is an
    explicit `ClockTick` event; the `onLogin` callback is an emitted `LoginRequest`. */
module Login {
  import opened Js

  datatype AuthMode = Phone | Email

  /** Seconds before "Resend Code" becomes available again. */
  const ResendCooldown: nat := 30

  /** Length of the one-time code the field accepts (`maxLength={6}`). */
  const OtpLength: nat := 6

  /** The one code the screen accepts; no code is generated or dispatched. */
  const MockCode: string := "123456"

  datatype LoginScreen = LoginScreen(
    mode: AuthMode,
    identifier: string,
    otp: string,
    tacSent: bool,
    countdown: nat)

  /** The arguments of `onLogin(identifier, mode)`. */
  datatype LoginRequest = LoginRequest(identifier: string, mode: AuthMode)

  datatype Step = Step(screen: LoginScreen, login: Option<LoginRequest>)

  /** What the user (or the interval timer) can do to the screen. */
  datatype Event =
    | TypeIdentifier(text: string)
    | PressSendTac
    | TypeOtp(text: string)
    | PressVerify
    | PressResend
    | ClockTick
    | PickMode(mode: AuthMode)

  function Initial(): LoginScreen {
    LoginScreen(Phone, "", "", false, 0)
  }

  predicate IsDigit(c: char) {
    '0' <= c <= '9'
  }

  predicate AllDigits(s: string) {
    forall i :: 0 <= i < |s| ==> IsDigit(s[i])
  }

  /** `s.replace(/\D/g, '')`: the digits of `s`, in order. */
  function KeepDigits(s: string): (d: string)
    ensures AllDigits(d)
    ensures |d| <= |s|
    ensures forall c :: c in d ==> c in s
  {
    if s == [] then []
    else if IsDigit(s[0]) then [s[0]] + KeepDigits(s[1..])
    else KeepDigits(s[1..])
  }

  /** The field's value after the browser applied `maxLength`, taken as a prefix. */
  function Truncate(s: string, n: nat): (t: string)
    ensures |t| <= n && t <= s
    ensures |s| <= n ==> t == s
    ensures |s| > n ==> t == s[..n]
  {
    if |s| <= n then s else s[..n]
  }

  /** The code held after the user typed `text` into the OTP field. */
  function EnteredOtp(text: string): (otp: string)
    ensures AllDigits(otp) && |otp| <= OtpLength
    ensures forall c :: c in otp ==> c in text
    ensures AllDigits(text) && |text| <= OtpLength ==> otp == text
    ensures |text| <= OtpLength ==> otp == KeepDigits(text)
    ensures |text| > OtpLength ==> otp == KeepDigits(text[..OtpLength])
  {
    KeepDigitsOfDigits(text);
    KeepDigits(Truncate(text, OtpLength))
  }

  /** The Send TAC button is enabled only for a non-empty identifier. */
  predicate CanSend(s: LoginScreen) {
    Truthy(s.identifier)
  }

  /** The Verify button is enabled only for a code of exactly six characters. */
  predicate CanVerify(s: LoginScreen) {
    |s.otp| == OtpLength
  }

  /** The Resend button is enabled only once the countdown has run out. */
  predicate CanResend(s: LoginScreen) {
    s.countdown == 0
  }

  /** `handleSendTac`, shared by Send TAC and Resend Code. */
  function SendTac(s: LoginScreen): (r: LoginScreen)
    ensures !Truthy(s.identifier) ==> r == s
    ensures Truthy(s.identifier) ==> r.tacSent && r.countdown == ResendCooldown
    ensures r.mode == s.mode && r.identifier == s.identifier && r.otp == s.otp
  {
    if !Truthy(s.identifier) then s
    else s.(tacSent := true, countdown := ResendCooldown)
  }

  /** One second of the countdown interval, which only runs while the countdown is positive. */
  function Tick(s: LoginScreen): (r: LoginScreen)
    ensures s.countdown > 0 ==> r.countdown + 1 == s.countdown
    ensures s.countdown == 0 ==> r == s
    ensures r.(countdown := s.countdown) == s
  {
    if s.countdown > 0 then s.(countdown := s.countdown - 1) else s
  }

  /** The OTP field's `onChange`. */
  function EditOtp(s: LoginScreen, text: string): (r: LoginScreen)
    ensures AllDigits(r.otp) && |r.otp| <= OtpLength
    ensures AllDigits(text) && |text| <= OtpLength ==> r.otp == text
    ensures |text| <= OtpLength ==> r.otp == KeepDigits(text)
    ensures |text| > OtpLength ==> r.otp == KeepDigits(text[..OtpLength])
    ensures r.(otp := s.otp) == s
  {
    KeepDigitsOfDigits(text);
    s.(otp := EnteredOtp(text))
  }

  /** `handleVerify`: a login is emitted only for the mock code; the screen never changes. */
  function Verify(s: LoginScreen): (r: Step)
    ensures r.screen == s
    ensures r.login.Some? <==> s.otp == MockCode
    ensures r.login.Some? ==> r.login.value == LoginRequest(s.identifier, s.mode)
  {
    if s.otp == MockCode then Step(s, Some(LoginRequest(s.identifier, s.mode)))
    else Step(s, None)
  }

  /** The Phone / Email tabs: restart the flow in the chosen mode. */
  function SwitchMode(s: LoginScreen, m: AuthMode): (r: LoginScreen)
    ensures r.mode == m && !r.tacSent && r.otp == ""
    ensures r.identifier == s.identifier && r.countdown == s.countdown
  {
    s.(mode := m, tacSent := false, otp := "")
  }

  /** Invariant of every screen reachable from `Initial()`. */
  predicate Inv(s: LoginScreen) {
    && s.countdown <= ResendCooldown
    && AllDigits(s.otp)
    && |s.otp| <= OtpLength
    && (!s.tacSent ==> s.otp == "")
    && (s.tacSent ==> Truthy(s.identifier))
  }

  /** One event, applied only when the control it comes from is rendered and enabled:
      the identifier field and Send TAC before a code is sent, the OTP field, Verify
      and Resend after. */
  function Apply(s: LoginScreen, ev: Event): (r: Step)
    ensures Inv(s) ==> Inv(r.screen)
    ensures r.login.Some? ==> ev.PressVerify? && s.tacSent && s.otp == MockCode
    ensures r.login.Some? ==> r.login.value == LoginRequest(s.identifier, s.mode)
    ensures ev.PressVerify? && s.tacSent && s.otp == MockCode ==> r.login.Some?
    ensures ev.PressVerify? ==> r.screen == s
    ensures r.screen.countdown > s.countdown ==>
              r.screen.countdown == ResendCooldown && Truthy(s.identifier)
    ensures r.screen.identifier != s.identifier ==> ev.TypeIdentifier? && !s.tacSent
    ensures !ev.PressVerify? ==> r.login.None?
    ensures r.screen.countdown > s.countdown ==>
              (ev.PressSendTac? && !s.tacSent) || (ev.PressResend? && s.tacSent && s.countdown == 0)
    // Every enabled control runs its handler.
    ensures ev.TypeIdentifier? && !s.tacSent ==> r.screen == s.(identifier := ev.text)
    ensures ev.PressSendTac? && !s.tacSent ==> r.screen == SendTac(s)
    ensures ev.TypeOtp? && s.tacSent ==> r.screen == EditOtp(s, ev.text)
    ensures ev.PressResend? && s.tacSent && s.countdown == 0 ==> r.screen == SendTac(s)
    ensures ev.ClockTick? ==> r.screen == Tick(s)
    ensures ev.PickMode? ==> r.screen == SwitchMode(s, ev.mode)
  {
    match ev
    case TypeIdentifier(text) =>
      Step(if s.tacSent then s else s.(identifier := text), None)
    case PressSendTac =>
      Step(if !s.tacSent && CanSend(s) then SendTac(s) else s, None)
    case TypeOtp(text) =>
      Step(if s.tacSent then EditOtp(s, text) else s, None)
    case PressVerify =>
      if s.tacSent && CanVerify(s) then Verify(s) else Step(s, None)
    case PressResend =>
      Step(if s.tacSent && CanResend(s) then SendTac(s) else s, None)
    case ClockTick =>
      Step(Tick(s), None)
    case PickMode(m) =>
      Step(SwitchMode(s, m), None)
  }

  /** The screen after a sequence of events, with every login emitted on the way. */
  datatype Trace = Trace(screen: LoginScreen, logins: seq<LoginRequest>)

  function Run(s: LoginScreen, evs: seq<Event>): (t: Trace)
    ensures |t.logins| <= |evs|
    decreases |evs|
  {
    if evs == [] then Trace(s, [])
    else
      var st := Apply(s, evs[0]);
      var rest := Run(st.screen, evs[1..]);
      Trace(rest.screen, (if st.login.Some? then [st.login.value] else []) + rest.logins)
  }

  /** Typing each code and pressing Verify after it. */
  function Attempts(codes: seq<string>): (evs: seq<Event>)
    ensures |evs| == 2 * |codes|
  {
    if codes == [] then []
    else [TypeOtp(codes[0]), PressVerify] + Attempts(codes[1..])
  }

  /** Filtering digits leaves an all-digit string as it is, and only such a string. */
  lemma {:induction false} KeepDigitsOfDigits(s: string)
    ensures KeepDigits(s) == s <==> AllDigits(s)
  {
    if s != [] {
      KeepDigitsOfDigits(s[1..]);
      if AllDigits(s) {
        assert AllDigits(s[1..]) by {
          forall i | 0 <= i < |s[1..]| ensures IsDigit(s[1..][i]) {
            assert s[1..][i] == s[i + 1];
          }
        }
        assert s == [s[0]] + s[1..];
      }
    }
  }

  /** The digit filter keeps every digit of its input as often as it occurs, and
      nothing else. */
  lemma {:induction false} KeepDigitsCounts(s: string, c: char)
    ensures multiset(KeepDigits(s))[c] == if IsDigit(c) then multiset(s)[c] else 0
  {
    if s != [] {
      KeepDigitsCounts(s[1..], c);
      assert s == [s[0]] + s[1..];
    }
  }

  /** The digit filter distributes over concatenation, so the digits keep their order. */
  lemma {:induction false} KeepDigitsAppend(a: string, b: string)
    ensures KeepDigits(a + b) == KeepDigits(a) + KeepDigits(b)
  {
    if a != [] {
      assert (a + b)[1..] == a[1..] + b;
      assert (a + b)[0] == a[0];
      KeepDigitsAppend(a[1..], b);
    } else {
      assert a + b == b;
    }
  }

  /** The OTP filter is idempotent: re-filtering what the field holds changes nothing. */
  lemma EnteredOtpIdempotent(text: string)
    ensures EnteredOtp(EnteredOtp(text)) == EnteredOtp(text)
  {
    KeepDigitsOfDigits(EnteredOtp(text));
  }

  /** Entering the mock code in the field holds exactly the mock code. */
  lemma EnteredMockCode()
    ensures EnteredOtp(MockCode) == MockCode
  {
  }

  /** A wrong code costs nothing: after any number of failed attempts the mock code
      still logs in, exactly once, with the identifier and mode of the screen. */
  lemma {:induction false} RetriesUnlimited(s: LoginScreen, codes: seq<string>)
    requires s.tacSent
    requires forall c :: c in codes ==> EnteredOtp(c) != MockCode
    ensures Run(s, Attempts(codes + [MockCode])).logins == [LoginRequest(s.identifier, s.mode)]
    decreases |codes|
  {
    if codes == [] {
      EnteredMockCode();
      assert Attempts([MockCode]) == [TypeOtp(MockCode), PressVerify];
      var s1 := EditOtp(s, MockCode);
      assert Apply(s, TypeOtp(MockCode)).screen == s1;
      assert Run(s, Attempts([MockCode])).logins
          == Run(s1, [PressVerify]).logins;
      assert Run(s1, [PressVerify]).logins == [LoginRequest(s.identifier, s.mode)];
    } else {
      var c := codes[0];
      assert codes + [MockCode] == [c] + (codes[1..] + [MockCode]);
      assert Attempts(codes + [MockCode])
          == [TypeOtp(c), PressVerify] + Attempts(codes[1..] + [MockCode]);
      var s1 := EditOtp(s, c);
      assert s1.otp != MockCode;
      var evs := Attempts(codes[1..] + [MockCode]);
      assert Run(s, [TypeOtp(c), PressVerify] + evs).logins == Run(s1, [PressVerify] + evs).logins by {
        assert ([TypeOtp(c), PressVerify] + evs)[1..] == [PressVerify] + evs;
      }
      assert Run(s1, [PressVerify] + evs).logins == Run(s1, evs).logins by {
        assert ([PressVerify] + evs)[1..] == evs;
      }
      RetriesUnlimited(s1, codes[1..]);
    }
  }

  /** Resend is disabled while the countdown runs, so pressing it changes nothing. */
  lemma ResendBlockedDuringCooldown(s: LoginScreen)
    requires s.countdown > 0
    ensures Apply(s, PressResend) == Step(s, None)
  {
  }

  /** Switching mode hides Resend and shows Send TAC, which ignores the countdown: with
      a non-empty identifier a new TAC can be sent at once, whatever the countdown. */
  lemma ModeSwitchSkipsCooldown(s: LoginScreen, m: AuthMode)
    requires Truthy(s.identifier)
    ensures Apply(Apply(s, PickMode(m)).screen, PressSendTac).screen.countdown == ResendCooldown
  {
  }

  /** Every login the screen emits, from any reachable screen, names a non-empty identifier. */
  lemma LoginHasIdentifier(s: LoginScreen, ev: Event)
    requires Inv(s)
    ensures Apply(s, ev).login.Some? ==> Truthy(Apply(s, ev).login.value.identifier)
  {
  }

  lemma InitialIsInv()
    ensures Inv(Initial())
  {
  }

  /** Whatever the user does, a reachable screen stays reachable and every login
      emitted on the way names a non-empty identifier. (That each login needs the mock
      code is a per-step fact, stated by `Apply`.) */
  lemma {:induction false} RunKeepsInv(s: LoginScreen, evs: seq<Event>)
    requires Inv(s)
    ensures Inv(Run(s, evs).screen)
    ensures forall l :: l in Run(s, evs).logins ==> Truthy(l.identifier)
    decreases |evs|
  {
    if evs != [] {
      var st := Apply(s, evs[0]);
      RunKeepsInv(st.screen, evs[1..]);
    }
  }
}

=== FILE: profile.dfy ===
/** The profile screen (screens/ProfileScreen.tsx): a form seeded once from the user,
    edited in place, and either saved over the user or abandoned. The `onUpdateUser` and
    `onLogout` callbacks are emitted outputs. */
module Profile {
  import opened Js
  import opened Users

  /** The picture shown for a user without one. */
  const PlaceholderPic: string := "https://picsum.photos/seed/user/400/400"

  datatype ProfileForm = ProfileForm(
    name: string,
    email: string,
    phone: string,
    dob: string,
    gender: Gender,
    profilePic: string)

  /** The editable text inputs. The picture is part of the form but has no input. */
  datatype TextField = Name | Email | Phone | Dob

  /** `user` is the prop, `editing` is `isEditing`, `form` is `formData`. */
  datatype ProfileScreen = ProfileScreen(user: Option<User>, editing: bool, form: ProfileForm)

  datatype Output = UpdateUser(user: User) | Logout

  datatype Step = Step(screen: ProfileScreen, output: Option<Output>)

  /** What the user can do on the screen, and `UserChanged`: the parent re-rendering it
      with a different `user` prop. */
  datatype Event =
    | StartEdit
    | EditText(field: TextField, value: string)
    | PickGender(gender: Gender)
    | SaveChanges
    | CancelEdit
    | PressLogout
    | UserChanged(user: Option<User>)

  /** `formData`'s initial value: each field from the user, or its default when the
      user or the field is missing (or, for the picture, empty). */
  function InitialForm(user: Option<User>): (f: ProfileForm)
    ensures f.profilePic != ""
    ensures user.Some? && user.value.name.Some? ==> f.name == user.value.name.value
    ensures user.Some? && user.value.email.Some? ==> f.email == user.value.email.value
    ensures user.Some? && user.value.phone.Some? ==> f.phone == user.value.phone.value
    ensures user.Some? && user.value.dob.Some? ==> f.dob == user.value.dob.value
    ensures user.Some? && user.value.name.None? ==> f.name == ""
    ensures user.Some? && user.value.email.None? ==> f.email == ""
    ensures user.Some? && user.value.phone.None? ==> f.phone == ""
    ensures user.Some? && user.value.dob.None? ==> f.dob == ""
    ensures user.Some? && user.value.gender.Some? ==> f.gender == user.value.gender.value
    ensures user.Some? && user.value.profilePic.Some? && user.value.profilePic.value != "" ==>
              f.profilePic == user.value.profilePic.value
    ensures user.None? ==> f == ProfileForm("", "", "", "", Other, PlaceholderPic)
    ensures user.Some? && user.value.gender.None? ==> f.gender == Other
    ensures user.Some? && (user.value.profilePic.None? || user.value.profilePic.value == "") ==>
              f.profilePic == PlaceholderPic
  {
    match user
    case None => ProfileForm("", "", "", "", Other, PlaceholderPic)
    case Some(u) =>
      ProfileForm(
        OrElse(u.name, ""),
        OrElse(u.email, ""),
        OrElse(u.phone, ""),
        OrElse(u.dob, ""),
        if u.gender.Some? then u.gender.value else Other,
        OrElse(u.profilePic, PlaceholderPic))
  }

  /** The screen as first rendered for `user`. */
  function Mount(user: Option<User>): ProfileScreen {
    ProfileScreen(user, false, InitialForm(user))
  }

  function Get(f: ProfileForm, field: TextField): string {
    match field
    case Name => f.name
    case Email => f.email
    case Phone => f.phone
    case Dob => f.dob
  }

  /** A text input's `onChange`: that field takes the typed value, nothing else moves. */
  function SetText(f: ProfileForm, field: TextField, v: string): (g: ProfileForm)
    ensures Get(g, field) == v
    ensures forall other :: other != field ==> Get(g, other) == Get(f, other)
    ensures g.gender == f.gender && g.profilePic == f.profilePic
  {
    match field
    case Name => f.(name := v)
    case Email => f.(email := v)
    case Phone => f.(phone := v)
    case Dob => f.(dob := v)
  }

  /** `{ ...user, ...formData }`: the form's six fields over the user, every other field kept. */
  function Merge(u: User, f: ProfileForm): (r: User)
    ensures r.name == Some(f.name) && r.email == Some(f.email)
    ensures r.phone == Some(f.phone) && r.dob == Some(f.dob)
    ensures r.gender == Some(f.gender) && r.profilePic == Some(f.profilePic)
    ensures r.(name := u.name, email := u.email, phone := u.phone, dob := u.dob,
               gender := u.gender, profilePic := u.profilePic) == u
  {
    u.(name := Some(f.name), email := Some(f.email), phone := Some(f.phone),
       dob := Some(f.dob), gender := Some(f.gender), profilePic := Some(f.profilePic))
  }

  /** `handleUpdate`: hand the merged user to `onUpdateUser` and leave editing mode. */
  function Save(s: ProfileScreen): (r: Step)
    requires s.user.Some?
    ensures r.output == Some(UpdateUser(Merge(s.user.value, s.form)))
    ensures !r.screen.editing && r.screen.form == s.form && r.screen.user == s.user
  {
    Step(s.(editing := false), Some(UpdateUser(Merge(s.user.value, s.form))))
  }

  /** Invariant of every reachable screen: the form always holds a picture. */
  predicate Inv(s: ProfileScreen) {
    s.form.profilePic != ""
  }

  /** One event, applied only when its control is on screen: nothing at all without a
      user, the edit form while editing, and the Edit Profile / Logout buttons otherwise.
      A new `user` prop replaces the user but keeps the form: `formData` is seeded only
      when the screen first renders. */
  function Apply(s: ProfileScreen, ev: Event): (r: Step)
    ensures s.user.None? && !ev.UserChanged? ==> r == Step(s, None)
    ensures !ev.UserChanged? ==> r.screen.user == s.user
    ensures ev.UserChanged? ==>
              && r.output.None? && r.screen.user == ev.user
              && r.screen.form == s.form && r.screen.editing == s.editing
    ensures Inv(s) ==> Inv(r.screen)
    ensures r.output.Some? && r.output.value.UpdateUser? ==>
              ev.SaveChanges? && s.editing && !r.screen.editing &&
              r.output.value.user == Merge(s.user.value, s.form)
    ensures ev.CancelEdit? && s.user.Some? ==> r.output.None? && r.screen.form == s.form && !r.screen.editing
    ensures r.screen.form != s.form ==> s.editing && (ev.EditText? || ev.PickGender?)
    ensures r.output == Some(Logout) ==> ev.PressLogout? && s.user.Some? && !s.editing
    // Every control on screen runs its handler.
    ensures s.user.Some? && s.editing ==>
              && (ev.EditText? ==> r == Step(s.(form := SetText(s.form, ev.field, ev.value)), None))
              && (ev.PickGender? ==> r == Step(s.(form := s.form.(gender := ev.gender)), None))
              && (ev.SaveChanges? ==> r == Save(s))
    ensures s.user.Some? && !s.editing ==>
              && (ev.StartEdit? ==> r == Step(s.(editing := true), None))
              && (ev.PressLogout? ==> r == Step(s, Some(Logout)))
  {
    if ev.UserChanged? then Step(s.(user := ev.user), None)
    else if s.user.None? then Step(s, None)
    else if s.editing then
      match ev
      case EditText(field, v) => Step(s.(form := SetText(s.form, field, v)), None)
      case PickGender(g) => Step(s.(form := s.form.(gender := g)), None)
      case SaveChanges => Save(s)
      case CancelEdit => Step(s.(editing := false), None)
      case _ => Step(s, None)
    else
      match ev
      case StartEdit => Step(s.(editing := true), None)
      case PressLogout => Step(s, Some(Logout))
      case _ => Step(s, None)
  }

  lemma MountIsInv(user: Option<User>)
    ensures Inv(Mount(user))
  {
  }

  /** Saving round-trips: a screen mounted for the saved user shows exactly the saved form. */
  lemma SaveRoundTrip(u: User, f: ProfileForm)
    requires f.profilePic != ""
    ensures InitialForm(Some(Merge(u, f))) == f
  {
  }

  /** Saving twice with the same form is saving once. */
  lemma MergeIdempotent(u: User, f: ProfileForm)
    ensures Merge(Merge(u, f), f) == Merge(u, f)
  {
  }

  /** Saving an untouched form still fills in defaults: a user without a picture comes
      back with the placeholder, one without a gender with `Other`. */
  lemma UneditedSaveFillsDefaults(u: User)
    ensures u.profilePic.None? ==> Merge(u, InitialForm(Some(u))).profilePic == Some(PlaceholderPic)
    ensures u.gender.None? ==> Merge(u, InitialForm(Some(u))).gender == Some(Other)
    ensures u.name.None? ==> Merge(u, InitialForm(Some(u))).name == Some("")
  {
  }

  /** Cancel keeps unsaved edits: reopening the editor shows them again. */
  lemma CancelKeepsEdits(s: ProfileScreen, field: TextField, v: string)
    requires s.user.Some? && s.editing
    ensures var s1 := Apply(s, EditText(field, v)).screen;
            var s2 := Apply(s1, CancelEdit).screen;
            var s3 := Apply(s2, StartEdit).screen;
            s3.editing && Get(s3.form, field) == v
  {
  }

  /** The screen after a sequence of events, with every output emitted on the way. */
  datatype Trace = Trace(screen: ProfileScreen, outputs: seq<Output>)

  function Run(s: ProfileScreen, evs: seq<Event>): (t: Trace)
    ensures |t.outputs| <= |evs|
    decreases |evs|
  {
    if evs == [] then Trace(s, [])
    else
      var st := Apply(s, evs[0]);
      var rest := Run(st.screen, evs[1..]);
      Trace(rest.screen, (if st.output.Some? then [st.output.value] else []) + rest.outputs)
  }

  /** No sequence of edits and saves touches the fields the form does not hold: every
      user handed to `onUpdateUser` keeps the id and credit balance of a user the screen
      was given (the mounted one when the prop never changed), and always carries a
      non-empty picture. */
  lemma {:induction false} RunKeepsOtherFields(s: ProfileScreen, evs: seq<Event>)
    requires Inv(s)
    ensures (forall e :: e in evs ==> !e.UserChanged?) ==> Run(s, evs).screen.user == s.user
    ensures forall o :: o in Run(s, evs).outputs && o.UpdateUser? ==>
              && o.user.profilePic.Some? && o.user.profilePic.value != ""
              && exists u :: (s.user == Some(u) || UserChanged(Some(u)) in evs) &&
                             o.user.id == u.id && o.user.creditBalance == u.creditBalance
    ensures (forall e :: e in evs ==> !e.UserChanged?) ==>
              forall o :: o in Run(s, evs).outputs && o.UpdateUser? ==>
                && s.user.Some?
                && o.user.id == s.user.value.id
                && o.user.creditBalance == s.user.value.creditBalance
    decreases |evs|
  {
    if evs != [] {
      var st := Apply(s, evs[0]);
      RunKeepsOtherFields(st.screen, evs[1..]);
      assert forall e :: e in evs[1..] ==> e in evs;
      assert evs[0] in evs;
    }
  }

  /** The form is seeded only at first render. A user who arrives after the screen
      mounted without one, then opens the editor and saves, is overwritten with the
      default form: empty name, `Other` and the placeholder picture. */
  lemma StaleFormSave(u: User)
    ensures var s1 := Apply(Mount(None), UserChanged(Some(u))).screen;
            var s2 := Apply(s1, StartEdit).screen;
            Apply(s2, SaveChanges).output == Some(UpdateUser(Merge(u, InitialForm(None))))
    ensures Merge(u, InitialForm(None)).name == Some("")
    ensures Merge(u, InitialForm(None)).gender == Some(Other)
    ensures Merge(u, InitialForm(None)).profilePic == Some(PlaceholderPic)
  {
  }
}

=== FILE: users.dfy ===
/** The user record shared by the account-creation and profile screens. */
module Users {
  import opened Js

  datatype Gender = Male | Female | Other

  /** A signed-in user. The six profile fields may be missing; `id` and
      `creditBalance` stand for every field the screens never edit. */
  datatype User = User(
    id: string,
    name: Option<string>,
    email: Option<string>,
    phone: Option<string>,
    dob: Option<string>,
    gender: Option<Gender>,
    profilePic: Option<string>,
    creditBalance: real)
}
